=== FILE: README.md ===
# ChessStateManager board engine, modelled in Dafny

This project models the board-state engine of a browser chess game. It covers the class
`ChessStateManager` in `src/board/stateManager.js`, which has three parts:

- **The snapshot codec.**
  - `genFen` writes `"/1"` for every empty tile and one letter for every piece. The letter is
    upper case for white and lower case for black.
  - `fenGen` reads such a text back. A `/` is skipped, a run of digits becomes that many blank
    tiles, and a letter becomes one piece.
  - Whenever the text is malformed or expands to the wrong number of tiles, `fenGen` falls back
    to an all-blank board of `rows*columns` tiles.
  - The format looks like FEN but is not FEN: no rank boundaries are tied to the board width,
    and there is no side-to-move field.
- **Turn bookkeeping.** `incrementMoves` and `nextTeam` run a small state machine over the
  active colour, the moves made this turn, and the per-turn move budget.
- **The move protocol.**
  - `tryMove` is the gate. It checks the side to move and the piece's stored move and take
    lists.
  - `move` executes a move. It advances the clock, relocates the piece and marks it as moved,
    then appends the new snapshot to the history.
  - The queries `getTile`, `getRow`, `getColumn` and `pieceTurn` support it.

The manager is an immutable record (`StateManager.Game`), and every mutating method is a
function from the old record to the new one. The files are:

- `pieces.dfy`: colours, piece kinds, pieces, tiles, the ASCII character classes and the
  decoder's letter lookup.
- `codec.dfy`: the encoder (`Encode` and the loop `GenFen`) and the decoder's scanning loop
  (`Parse`, `FillBlanks`, `AddPiece`). It also holds `FenGen` with its fallback, a token view of
  the decoder used to state what a well-formed text decodes to, and the round trip.
- `turns.dfy`: the turn clock.
- `helpers.dfy`: general facts about sequence concatenation and integer division.
- `state_manager.dfy`: the manager record, the queries, `Move`, `TryMove`, and runs of moves
  with their history.
- `scenarios.dfy`: two worked cases. One is the empty 8x8 board written as `8/8/8/8/8/8/8/8`.
  The other is a rook's first move.

Assumptions the source does not settle:

- **Piece letters.** The piece classes are not part of this model, so each kind's tag is
  assumed to be the upper-case letter the decoder maps to that kind: R, B, N, K, P, Q.
- **Decoded pieces.** A freshly decoded piece is taken to be unmoved, with empty stored move
  and take lists.
- **Unknown letters.** A letter outside the lookup makes `#addPiece` push a tile whose piece is
  `undefined`. It is modelled as an empty tile.

## Model

All source paths are relative to the repository root. The scanning loop of `fenGen`
(`Codec.Parse`) carries no contract of its own. What it does is stated by the rows for
`Codec.ParseAppends`, `Codec.ParseSlash`, `Codec.ParseLetter`, `Codec.ParseDigits`,
`Codec.ParseToken`, `Codec.ParseRender` and `Codec.ParseSucceedsIffRecognized`.

| member | source | states |
|---|---|---|
| Pieces.LetterPiece | src/board/stateManager.js:238-266 | a letter yields a piece exactly when its lower-case form is one of r, b, n, k, p, q; the piece is of that kind, white exactly for an upper-case letter, and fresh (unmoved, no stored moves) |
| Pieces.Tag | src/board/stateManager.js:246-265 | each kind's tag is an upper-case letter that the decoder's lookup maps back to the same kind |
| Codec.PieceCode | src/board/stateManager.js:184-188 | the letter for a piece is a letter, is lower case exactly when the piece is black, and names the piece's kind under the decoder's lookup |
| Codec.EncodeShape | src/board/stateManager.js:176-196 | the snapshot is the codes of the earlier tiles, then tile i's code, then the codes of the later tiles; an empty tile writes "/1"; an occupied tile writes one letter, lower case exactly for black, naming its kind |
| Codec.EncodeAppend | src/board/stateManager.js:178-194 | the snapshot of a concatenation is the concatenation of the snapshots |
| Codec.GenFen | src/board/stateManager.js:176-197 | the loop that appends each tile's code returns the snapshot of the whole sequence |
| Codec.DigitRun | src/board/stateManager.js:206 | the greedy `^\d+` match covers only digits and stops at the first non-digit or at the end |
| Codec.FillBlanks | src/board/stateManager.js:233-237 | #fillBlanks keeps the output as a prefix and appends exactly num empty tiles, each numbered with its position |
| Codec.Numeral | src/board/stateManager.js:230 | `n + ""` is a non-empty digit string whose decimal value is n |
| Codec.AddPiece | src/board/stateManager.js:238-266 | #addPiece keeps the output as a prefix and appends one tile numbered with its position, holding an unmoved piece of the letter's kind, white exactly for an upper-case letter, and no piece for a letter outside the lookup |
| Codec.ParseAppends | src/board/stateManager.js:203-223 | the scan never removes or changes tiles already produced, and keeps every tile numbered with its position |
| Codec.ParseSlash | src/board/stateManager.js:208-209 | a '/' is consumed and produces no tile |
| Codec.ParseLetter | src/board/stateManager.js:212-216 | a letter is consumed alone and appends one tile, numbered with its position, holding the letter's piece |
| Codec.ParseDigits | src/board/stateManager.js:212-221 | a maximal run of digits of value v is consumed whole and appends exactly v empty tiles numbered from the current length |
| Codec.ParseToken | src/board/stateManager.js:207-221 | every separator, digit run or letter is consumed whole and appends exactly its own tiles |
| Codec.ParseRender | src/board/stateManager.js:207-237 | any well-formed token text (no digit run directly after another) decodes to the concatenated tiles of its tokens, numbered consecutively |
| Codec.ParseSucceedsIffRecognized | src/board/stateManager.js:203-231 | the scan fails exactly when some character is neither '/', a digit nor a letter: there `fen.match(reg)` returns null and reading `match[0]` throws |
| Codec.FenGen | src/board/stateManager.js:202-231 | the decoded board always has rows*columns tiles, each numbered with its position; it is the complete scan result when the scan succeeds with exactly rows*columns tiles, and the all-blank board otherwise, never a partial one |
| Codec.FenGenOfTokens | src/board/stateManager.js:224-231 | a well-formed text loads its expansion when that has exactly rows*columns tiles, and the all-blank board otherwise |
| Codec.StrayCharacterGivesBlankBoard | src/board/stateManager.js:203-231 | a character outside '/', the digits and the letters anywhere in the input gives the all-blank board |
| Codec.FallbackIsNumeralDecode | src/board/stateManager.js:229-231 | the recursive fallback, which decodes the numeral of rows*columns, yields the all-blank board of that size |
| Codec.ParseEncode | src/board/stateManager.js:176-266 | decoding any snapshot succeeds and appends one tile per encoded tile, with the same occupant kind and colour, numbered consecutively |
| Codec.RoundTrip | src/board/stateManager.js:176-266 | for a board of rows*columns tiles, decoding its snapshot restores the size, numbers every tile by position, keeps each tile's piece kind and colour, and rebuilds every piece as unmoved |
| Turns.IncrementMoves | src/board/stateManager.js:82-84 | the move counter goes up by one and nothing else changes |
| Turns.NextTeam | src/board/stateManager.js:70-81 | below the budget nothing changes; at or above it the counter resets to 0 and the colour flips |
| Turns.Tick | src/board/stateManager.js:154-155 | one move keeps the colour and raises the counter while the raised counter is below the budget, and otherwise flips the colour once and resets the counter; a counter inside a positive budget stays inside it |
| Turns.TicksCount | src/board/stateManager.js:70-84 | with budget k >= 1, after n moves the counter is (counter + n) mod k, and the colour has flipped once per completed budget |
| Turns.FlipsOncePerBudget | src/board/stateManager.js:70-84 | from the start of a turn, fewer than k moves keep the colour, and exactly k moves flip it once and reset the counter |
| StateManager.LoadFen | src/board/stateManager.js:202-231 | the tiles become exactly what fenGen decodes from the text for the manager's dimensions (the complete scan or the all-blank board, as Codec.FenGen states), so the board is always loaded, and no other field changes |
| StateManager.GetTile | src/board/stateManager.js:37-43 | an on-board index returns that tile; any other index returns the sentinel tile numbered -1 with no piece; on a loaded board index -1 tells the sentinel apart from every real tile |
| StateManager.PieceTurn | src/board/stateManager.js:64-69 | the test passes exactly when the piece getTile reports for the index has the colour to move, and fails for every piece of the other colour |
| StateManager.RowColumn | src/board/stateManager.js:56-63 | row*columns + column gives back the index exactly when the index is non-negative or a multiple of the width; a non-negative index has a non-negative row and a column inside the width; an on-board index has a row below rows |
| StateManager.Move | src/board/stateManager.js:153-165 | the source tile is emptied; the destination holds the source's piece marked as moved; every other tile is unchanged; the clock makes one tick; the history grows by the snapshot of the new board; a loaded board stays loaded |
| StateManager.MoveRelocates | src/board/stateManager.js:159-162 | a move never copies a piece: the piece count is kept on a plain move and drops by exactly one when the destination was occupied, which includes move(i, i) emptying its own tile |
| StateManager.TryMove | src/board/stateManager.js:91-107 | the move is made exactly when the piece belongs to the side to move and the destination is in its stored move or take list; a refusal changes nothing; the move list is checked first, so a capture is reported exactly for a destination only in the take list, naming the destination occupant's kind |
| StateManager.Encodings | src/board/stateManager.js:165 | the snapshot list has one entry per manager, in order, each the snapshot of that manager's board |
| StateManager.HistoryRecordsEveryMove | src/board/stateManager.js:165 | after a run of moves the history is the old history followed by the board snapshot after each move, in order |
| StateManager.PlayKeepsBookkeeping | src/board/stateManager.js:153-165 | a run of n moves ticks the clock n times and keeps a loaded board loaded |
| StateManager.NewGameRun | src/board/stateManager.js:13-22 | in a new game loaded from any text, after n moves the history holds n snapshots, the board is loaded, and with one move per turn the side to move has alternated n times from white |
| Scenarios.EightBlankRanks | src/board/stateManager.js:202-237 | "8/8/8/8/8/8/8/8" on an 8x8 board loads 64 empty tiles |
| Scenarios.RookMove | src/board/stateManager.js:91-165 | a white rook on tile 0 whose stored moves are 1..7 moves to tile 7 without a capture: tile 0 empties, tile 7 holds the moved rook, black is to move, and one snapshot is recorded |

## Left out

- Presentation and side effects are not modelled: `unhighlight`, `getTileFromDiv`,
  `getDivFromIndex`, `board.update` and `console.log`. They drive the page and do not change
  the board state.
- `highlightMoves` is not modelled. Besides marking the page, it calls
  `piece.generateMoves(currPos)` (line 112), which overwrites the selected piece's stored move
  and take lists. The model treats those lists as arbitrary input on each `Piece`, so every
  `TryMove` and `Move` fact holds whatever they contain.
- `MessageBoard.moveMessage` is an external move log and is not modelled. The source hands it
  the captured piece's `getName()` (line 102), which lives in the piece classes that are not
  part of this model. `TryMove` returns the captured piece's kind instead, on the assumption
  that the name identifies the kind. At line 157 the source passes
  `getColumns()` twice, where the second argument was presumably meant to be the row count.
  This does not affect the state.
- Move generation is not modelled: `generateMoves` and the per-piece geometry live in the piece
  classes, which are not part of this model. The stored move and take lists are opaque data on
  each piece. `tryMove` reads them without regenerating them, and the model does the same.
- `enPassantTiles` is not modelled, because nothing reads or writes it after construction.
- `getTurn` is `clock.turn` and `getState` is `state`. `getBoard` returns the page's board
  object, which is not modelled; only its row and column counts are kept, as `rows` and
  `columns`. `getPieceColor` is the colour field of `GetTile`'s piece.
- StateManager.TryMove: calling `tryMove` on an empty source tile, an out-of-range index, or a
  take onto an empty tile dereferences null in the source and throws. The model makes these
  cases preconditions (`TryMoveDefined`; `CanMove` for `Move`) and does not model the
  exception. An empty source tile makes `pieceTurn` dereference null and throw; it never
  returns false. In the source, a crash inside `move` on an out-of-range destination (line 161) comes
  after the clock has already advanced (lines 154-155) and after the piece has already been
  marked as moved (line 159); that partial update is not modelled either.
- StateManager.GetTile requires the board to be loaded (`|state| == rows*columns`). Before any
  load the source returns `undefined` for an on-board index, and that case is not modelled.
- StateManager.RowColumn assumes a positive number of columns. The source divides by the
  column count without checking it.
- Pieces.LetterPiece: an unknown letter gives an empty tile, on the assumption that `hasPiece`
  treats an `undefined` piece like `null`. The piece classes that would settle this are not
  part of this model.
- Pieces.Tag: the tag letters R, B, N, K, P, Q are an assumption, because `getTag` lives in
  the piece classes.
- Codec.FenGen models the fallback directly as the all-blank board. `FallbackIsNumeralDecode`
  shows that this equals what the source's recursive call decodes.
- Codec.Numeral does not model JavaScript number formatting for very large values. From
  10^21 up, `n + ""` switches to exponent notation. `Number(code)` is modelled as unbounded,
  so a digit run too long for a double is not modelled either.
- Codec.RoundTrip keeps each tile's piece kind and colour but not the piece's moved flag or its
  stored move lists. The snapshot format does not record them, and the decoder rebuilds every
  piece unmoved.
- StateManager.Move: `move(i, i)` is modelled as the source writes it. The destination is set
  first and the source is cleared afterwards, so the tile ends up empty.

=== FILE: codec.dfy ===
/** The bespoke board snapshot format of ChessStateManager: `genFen` writes
    "/1" for every empty tile and one letter for every occupied tile (upper
    case for white, lower case for black); `fenGen` reads such a string back,
    falling back to an all-blank board whenever the text is malformed or
    expands to the wrong number of tiles. It is not standard FEN: there are
    no rank separators tied to the board width and no side-to-move field. */
module Codec {
  import opened Pieces
  import Helpers

  // ---------------------------------------------------------------------
  // Encoder (genFen)
  // ---------------------------------------------------------------------

  /** The letter an occupied tile contributes. */
  function PieceCode(p: Piece): (c: char)
    ensures IsLetter(c)
    ensures IsLower(c) <==> p.color == Black
    ensures KindOfLetter(ToLower(c)) == Some(p.kind)
  {
    if p.color == Black then ToLower(Tag(p.kind)) else Tag(p.kind)
  }

  /** The text one tile contributes to a snapshot. */
  function TileCode(t: Tile): string
  {
    match t.piece
    case None => "/1"
    case Some(p) => [PieceCode(p)]
  }

  /** The snapshot of a tile sequence: the tiles' codes in index order. */
  function Encode(tiles: seq<Tile>): string
  {
    if |tiles| == 0 then "" else TileCode(tiles[0]) + Encode(tiles[1..])
  }

  lemma {:induction false} EncodeAppend(a: seq<Tile>, b: seq<Tile>)
    ensures Encode(a + b) == Encode(a) + Encode(b)
    decreases |a|
  {
    if |a| == 0 {
      assert a + b == b;
    } else {
      assert (a + b)[1..] == a[1..] + b;
      EncodeAppend(a[1..], b);
    }
  }

  /** Tile i's code sits between the codes of the tiles before it and the
      codes of the tiles after it; empty tiles write "/1", occupied tiles one
      letter that is lower case exactly for black and names the kind. */
  lemma EncodeShape(tiles: seq<Tile>, i: int)
    requires 0 <= i < |tiles|
    ensures Encode(tiles) == Encode(tiles[..i]) + TileCode(tiles[i]) + Encode(tiles[i + 1..])
    ensures tiles[i].piece.None? ==> TileCode(tiles[i]) == "/1"
    ensures tiles[i].piece.Some? ==>
      |TileCode(tiles[i])| == 1 && IsLetter(TileCode(tiles[i])[0])
      && (IsLower(TileCode(tiles[i])[0]) <==> tiles[i].piece.value.color == Black)
      && KindOfLetter(ToLower(TileCode(tiles[i])[0])) == Some(tiles[i].piece.value.kind)
  {
    var tail := [tiles[i]] + tiles[i + 1..];
    assert tiles == tiles[..i] + tail;
    EncodeAppend(tiles[..i], tail);
    assert tail[1..] == tiles[i + 1..];
  }

  /** genFen: the source's loop over the tiles, appending each tile's text. */
  method GenFen(state: seq<Tile>) returns (output: string)
    ensures output == Encode(state)
  {
    output := "";
    var i := 0;
    while i < |state|
      invariant 0 <= i <= |state|
      invariant output == Encode(state[..i])
    {
      var curr := state[i];
      var toAdd: string;
      if curr.piece.Some? {
        toAdd := [Tag(curr.piece.value.kind)];
        if curr.piece.value.color == Black {
          toAdd := [ToLower(toAdd[0])];
        }
      } else {
        toAdd := "/1";
      }
      assert Encode(state[..i + 1]) == output + toAdd by {
        EncodeAppend(state[..i], [curr]);
        assert state[..i + 1] == state[..i] + [curr];
        assert Encode([curr]) == TileCode(curr) + Encode([]);
      }
      output := output + toAdd;
      i := i + 1;
    }
    assert state[..|state|] == state;
  }

  // ---------------------------------------------------------------------
  // Decoder (fenGen, #fillBlanks, #addPiece)
  // ---------------------------------------------------------------------

  /** The characters the decoder accepts: the separator, a digit, a letter. */
  predicate Recognized(c: char)
  {
    c == '/' || IsDigit(c) || IsLetter(c)
  }

  predicate AllRecognized(s: string)
  {
    forall i :: 0 <= i < |s| ==> Recognized(s[i])
  }

  predicate AllDigits(s: string)
  {
    forall i :: 0 <= i < |s| ==> IsDigit(s[i])
  }

  /** The length of what /^\d+/ matches: the longest run of leading digits. */
  function DigitRun(s: string): (n: nat)
    ensures n <= |s|
    ensures forall i :: 0 <= i < n ==> IsDigit(s[i])
    ensures n < |s| ==> !IsDigit(s[n])
  {
    if |s| == 0 || !IsDigit(s[0]) then 0 else 1 + DigitRun(s[1..])
  }

  function DigitValue(c: char): nat
    requires IsDigit(c)
  {
    c as int - '0' as int
  }

  /** Number(code) for a string of decimal digits. */
  function DigitsValue(s: string): nat
    requires AllDigits(s)
  {
    if |s| == 0 then 0 else DigitsValue(s[..|s| - 1]) * 10 + DigitValue(s[|s| - 1])
  }

  /** `count` empty tiles numbered from `from` on. */
  function Blanks(from: nat, count: nat): (r: seq<Tile>)
    ensures |r| == count
  {
    seq(count, i requires 0 <= i < count => Tile(from + i, None))
  }

  lemma BlanksSplit(from: nat, a: nat, b: nat)
    ensures Blanks(from, a) + Blanks(from + a, b) == Blanks(from, a + b)
  {
    var l, r := Blanks(from, a) + Blanks(from + a, b), Blanks(from, a + b);
    forall i | 0 <= i < a + b
      ensures l[i] == r[i]
    {
      if i >= a {
        assert l[i] == Blanks(from + a, b)[i - a];
      }
    }
  }

  /** #fillBlanks: pushes `num` empty tiles, each numbered with the length
      of the output at the time it is pushed. */
  function FillBlanks(output: seq<Tile>, num: nat): (r: seq<Tile>)
    ensures |r| == |output| + num
    ensures r[..|output|] == output
    ensures forall i :: |output| <= i < |r| ==> r[i] == Tile(i, None)
  {
    output + Blanks(|output|, num)
  }

  /** #addPiece: pushes one tile holding the letter's piece (none for a
      letter outside the lookup). */
  function AddPiece(output: seq<Tile>, code: char): (r: seq<Tile>)
    requires IsLetter(code)
    ensures |r| == |output| + 1 && r[..|output|] == output
    ensures r[|output|].index == |output|
    ensures r[|output|].piece.Some? <==> KindOfLetter(ToLower(code)).Some?
    ensures r[|output|].piece.Some? ==>
      && r[|output|].piece.value.kind == KindOfLetter(ToLower(code)).value
      && (r[|output|].piece.value.color == White <==> IsUpper(code))
      && !r[|output|].piece.value.moved
  {
    output + [Tile(|output|, LetterPiece(code))]
  }

  /** The scanning loop of fenGen: skip a '/', expand a digit run into
      blanks, turn a letter into a tile; any other character makes the
      regular expression fail to match, which the source's catch turns into
      the fallback (None here). */
  function Parse(fen: string, output: seq<Tile>): Option<seq<Tile>>
    decreases |fen|
  {
    if |fen| == 0 then Some(output)
    else if fen[0] == '/' then Parse(fen[1..], output)
    else if IsDigit(fen[0]) then
      var n := DigitRun(fen);
      Parse(fen[n..], FillBlanks(output, DigitsValue(fen[..n])))
    else if IsLetter(fen[0]) then Parse(fen[1..], AddPiece(output, fen[0]))
    else None
  }

  /** The scan only appends: what was produced stays in place, and a
      numbered output stays numbered. */
  lemma {:induction false} ParseAppends(fen: string, output: seq<Tile>)
    ensures Parse(fen, output).Some? ==>
      |output| <= |Parse(fen, output).value| && Parse(fen, output).value[..|output|] == output
    ensures Parse(fen, output).Some? && WellIndexed(output) ==> WellIndexed(Parse(fen, output).value)
    decreases |fen|
  {
    if |fen| == 0 {
    } else if fen[0] == '/' {
      ParseAppends(fen[1..], output);
    } else if IsDigit(fen[0]) {
      var n := DigitRun(fen);
      var next := FillBlanks(output, DigitsValue(fen[..n]));
      ParseAppends(fen[n..], next);
      if Parse(fen, output).Some? {
        var r := Parse(fen, output).value;
        assert r[..|next|] == next;
        assert r[..|output|] == next[..|output|];
      }
    } else if IsLetter(fen[0]) {
      var next := AddPiece(output, fen[0]);
      ParseAppends(fen[1..], next);
      if Parse(fen, output).Some? {
        var r := Parse(fen, output).value;
        assert r[..|next|] == next;
        assert r[..|output|] == next[..|output|];
      }
    }
  }

  /** The all-blank board of n tiles. */
  function Blank(n: nat): (r: seq<Tile>)
    ensures |r| == n && WellIndexed(r)
    ensures forall i :: 0 <= i < n ==> r[i].piece.None?
  {
    Blanks(0, n)
  }

  /** fenGen: the decoded tiles when the scan succeeds with exactly
      rows*columns tiles, otherwise the all-blank board; never a partial result. */
  function FenGen(fen: string, rows: nat, columns: nat): (r: seq<Tile>)
    ensures |r| == rows * columns
    ensures WellIndexed(r)
    ensures r == Blank(rows * columns) || Parse(fen, []) == Some(r)
    ensures Parse(fen, []).Some? && |Parse(fen, []).value| == rows * columns ==>
      r == Parse(fen, []).value
    ensures Parse(fen, []).None? || |Parse(fen, []).value| != rows * columns ==>
      r == Blank(rows * columns)
  {
    ParseAppends(fen, []);
    match Parse(fen, [])
    case Some(output) => if |output| == rows * columns then output else Blank(rows * columns)
    case None => Blank(rows * columns)
  }

  // ---------------------------------------------------------------------
  // The decoder read token by token
  // ---------------------------------------------------------------------

  /** The units the decoder consumes: a separator, a run of digits, a letter. */
  datatype Token = Slash | Digits(run: string) | Letter(code: char)

  predicate TokenOk(t: Token)
  {
    match t
    case Slash => true
    case Digits(run) => |run| > 0 && AllDigits(run)
    case Letter(code) => IsLetter(code)
  }

  function TokenText(t: Token): string
  {
    match t
    case Slash => "/"
    case Digits(run) => run
    case Letter(code) => [code]
  }

  function Render(ts: seq<Token>): string
  {
    if |ts| == 0 then "" else TokenText(ts[0]) + Render(ts[1..])
  }

  /** Token lists the greedy scanner reads back as written: every token is
      well formed and no digit run directly follows another. */
  predicate Lexable(ts: seq<Token>)
    decreases |ts|
  {
    |ts| == 0 ||
    (TokenOk(ts[0]) && (|ts| == 1 || !(ts[0].Digits? && ts[1].Digits?)) && Lexable(ts[1..]))
  }

  /** What one token contributes, numbered from `from`: nothing for a
      separator, DigitsValue(run) blanks for a digit run, one tile for a letter. */
  function TokenTiles(t: Token, from: nat): seq<Tile>
    requires TokenOk(t)
  {
    match t
    case Slash => []
    case Digits(run) => Blanks(from, DigitsValue(run))
    case Letter(code) => [Tile(from, LetterPiece(code))]
  }

  /** The tiles of a token list, each numbered with its position from `from`. */
  function Expand(ts: seq<Token>, from: nat): (r: seq<Tile>)
    requires Lexable(ts)
    ensures forall i :: 0 <= i < |r| ==> r[i].index == from + i
    decreases |ts|
  {
    if |ts| == 0 then []
    else
      var head := TokenTiles(ts[0], from);
      head + Expand(ts[1..], from + |head|)
  }

  lemma {:induction false} DigitRunOfPrefix(run: string, rest: string)
    requires AllDigits(run)
    requires rest == "" || !IsDigit(rest[0])
    ensures DigitRun(run + rest) == |run|
    decreases |run|
  {
    if |run| == 0 {
      assert run + rest == rest;
    } else {
      assert (run + rest)[1..] == run[1..] + rest;
      DigitRunOfPrefix(run[1..], rest);
    }
  }

  /** A rendering that does not start with a digit run does not start with a digit. */
  lemma RenderHead(ts: seq<Token>)
    requires Lexable(ts)
    requires |ts| > 0 && !ts[0].Digits?
    ensures |Render(ts)| > 0 && !IsDigit(Render(ts)[0])
  {
  }

  /** A separator is consumed without producing a tile. */
  lemma ParseSlash(rest: string, output: seq<Tile>)
    ensures Parse("/" + rest, output) == Parse(rest, output)
  {
    assert ("/" + rest)[1..] == rest;
  }

  /** A letter produces exactly one tile, numbered with its position. */
  lemma ParseLetter(code: char, rest: string, output: seq<Tile>)
    requires IsLetter(code)
    ensures Parse([code] + rest, output) == Parse(rest, output + [Tile(|output|, LetterPiece(code))])
  {
    assert ([code] + rest)[1..] == rest;
  }

  /** A maximal digit run of value v produces exactly v blank tiles,
      numbered with their positions. */
  lemma ParseDigits(run: string, rest: string, output: seq<Tile>)
    requires |run| > 0 && AllDigits(run)
    requires rest == "" || !IsDigit(rest[0])
    ensures Parse(run + rest, output) == Parse(rest, output + Blanks(|output|, DigitsValue(run)))
  {
    DigitRunOfPrefix(run, rest);
    assert (run + rest)[..|run|] == run;
    assert (run + rest)[|run|..] == rest;
  }

  lemma ExpandCons(ts: seq<Token>, from: nat)
    requires Lexable(ts) && |ts| > 0
    ensures Expand(ts, from)
         == TokenTiles(ts[0], from) + Expand(ts[1..], from + |TokenTiles(ts[0], from)|)
  {
  }

  /** One token is consumed whole and appends its own tiles, provided a
      digit run is not directly followed by another digit. */
  lemma ParseToken(t: Token, rest: string, output: seq<Tile>)
    requires TokenOk(t)
    requires t.Digits? ==> rest == "" || !IsDigit(rest[0])
    ensures Parse(TokenText(t) + rest, output) == Parse(rest, output + TokenTiles(t, |output|))
  {
    match t {
      case Slash =>
        ParseSlash(rest, output);
        assert output + [] == output;
      case Letter(code) =>
        ParseLetter(code, rest, output);
      case Digits(run) =>
        ParseDigits(run, rest, output);
    }
  }

  /** Reading a token list starts by consuming its first token whole. */
  lemma ParseRenderStep(ts: seq<Token>, output: seq<Tile>)
    requires Lexable(ts) && |ts| > 0
    ensures Parse(Render(ts), output)
         == Parse(Render(ts[1..]), output + TokenTiles(ts[0], |output|))
  {
    assert Render(ts) == TokenText(ts[0]) + Render(ts[1..]);
    if |ts| > 1 && ts[0].Digits? {
      RenderHead(ts[1..]);
    }
    ParseToken(ts[0], Render(ts[1..]), output);
  }

  /** The inductive step of ParseRender: reading the first token, then the
      rest as the hypothesis says, reads the whole list. */
  lemma ParseRenderCons(ts: seq<Token>, output: seq<Tile>)
    requires Lexable(ts) && |ts| > 0
    requires Parse(Render(ts[1..]), output + TokenTiles(ts[0], |output|))
          == Some((output + TokenTiles(ts[0], |output|))
                  + Expand(ts[1..], |output| + |TokenTiles(ts[0], |output|)|))
    ensures Parse(Render(ts), output) == Some(output + Expand(ts, |output|))
  {
    ParseRenderStep(ts, output);
    ExpandCons(ts, |output|);
    Helpers.Associative(output, TokenTiles(ts[0], |output|),
                        Expand(ts[1..], |output| + |TokenTiles(ts[0], |output|)|));
  }

  /** The decoder reads a token list back token by token: a separator adds
      no tile, a digit run of value v adds v blanks, a letter adds one tile,
      and every tile is numbered with its position in the output. */
  lemma {:induction false} ParseRender(ts: seq<Token>, output: seq<Tile>)
    requires Lexable(ts)
    ensures Parse(Render(ts), output) == Some(output + Expand(ts, |output|))
    decreases |ts|
  {
    if |ts| == 0 {
      assert output + [] == output;
    } else {
      ParseRender(ts[1..], output + TokenTiles(ts[0], |output|));
      ParseRenderCons(ts, output);
    }
  }

  lemma AllRecognizedSplit(s: string, n: nat)
    requires n <= |s|
    ensures AllRecognized(s) <==> AllRecognized(s[..n]) && AllRecognized(s[n..])
  {
    if AllRecognized(s[..n]) && AllRecognized(s[n..]) {
      forall i | 0 <= i < |s|
        ensures Recognized(s[i])
      {
        if i < n {
          assert s[i] == s[..n][i];
        } else {
          assert s[i] == s[n..][i - n];
        }
      }
    }
  }

  /** The scan fails exactly when some character is neither '/', a digit nor a letter. */
  lemma {:induction false} ParseSucceedsIffRecognized(fen: string, output: seq<Tile>)
    ensures Parse(fen, output).Some? <==> AllRecognized(fen)
    decreases |fen|
  {
    if |fen| == 0 {
    } else if fen[0] == '/' {
      ParseSucceedsIffRecognized(fen[1..], output);
      AllRecognizedSplit(fen, 1);
    } else if IsDigit(fen[0]) {
      var n := DigitRun(fen);
      ParseSucceedsIffRecognized(fen[n..], FillBlanks(output, DigitsValue(fen[..n])));
      AllRecognizedSplit(fen, n);
    } else if IsLetter(fen[0]) {
      ParseSucceedsIffRecognized(fen[1..], AddPiece(output, fen[0]));
      AllRecognizedSplit(fen, 1);
    } else {
      assert !Recognized(fen[0]);
    }
  }

  /** fenGen of a well-formed token list: the expansion when it has exactly
      rows*columns tiles, the all-blank board otherwise. */
  lemma FenGenOfTokens(ts: seq<Token>, rows: nat, columns: nat)
    requires Lexable(ts)
    ensures FenGen(Render(ts), rows, columns)
         == if |Expand(ts, 0)| == rows * columns then Expand(ts, 0) else Blank(rows * columns)
  {
    ParseRender(ts, []);
    assert [] + Expand(ts, 0) == Expand(ts, 0);
  }

  /** A character outside the decoder's alphabet anywhere in the input
      yields the all-blank board. */
  lemma StrayCharacterGivesBlankBoard(fen: string, rows: nat, columns: nat)
    requires exists i :: 0 <= i < |fen| && !Recognized(fen[i])
    ensures FenGen(fen, rows, columns) == Blank(rows * columns)
  {
    ParseSucceedsIffRecognized(fen, []);
  }

  // ---------------------------------------------------------------------
  // The fallback: fenGen of the numeral rows*columns
  // ---------------------------------------------------------------------

  function DigitChar(d: nat): (c: char)
    requires d < 10
    ensures IsDigit(c) && DigitValue(c) == d
  {
    ('0' as int + d) as char
  }

  /** The decimal numeral of n, as `n + ""` writes it. */
  function Numeral(n: nat): (s: string)
    ensures |s| > 0 && AllDigits(s)
    ensures DigitsValue(s) == n
  {
    if n < 10 then [DigitChar(n)]
    else
      var s := Numeral(n / 10) + [DigitChar(n % 10)];
      assert s[..|s| - 1] == Numeral(n / 10);
      s
  }

  /** The source's fallback re-decodes the numeral rows*columns; that
      decode succeeds and yields exactly the all-blank board. */
  lemma FallbackIsNumeralDecode(rows: nat, columns: nat)
    ensures Parse(Numeral(rows * columns), []) == Some(Blank(rows * columns))
    ensures FenGen(Numeral(rows * columns), rows, columns) == Blank(rows * columns)
  {
    var ts := [Digits(Numeral(rows * columns))];
    assert Render(ts) == Numeral(rows * columns) + "";
    assert Numeral(rows * columns) + "" == Numeral(rows * columns);
    ParseRender(ts, []);
    assert Expand(ts, 0) == Blanks(0, rows * columns) + [];
  }

  // ---------------------------------------------------------------------
  // Round trip
  // ---------------------------------------------------------------------

  /** A tile as the decoder rebuilds it from its code: same occupant kind and
      colour, a fresh piece, the given index. */
  function Reload(t: Tile, index: int): Tile
  {
    Tile(index, match t.piece case None => None case Some(p) => Some(Fresh(p.kind, p.color)))
  }

  function Reloaded(tiles: seq<Tile>, from: nat): (r: seq<Tile>)
    ensures |r| == |tiles|
  {
    seq(|tiles|, i requires 0 <= i < |tiles| => Reload(tiles[i], from + i))
  }

  /** A non-empty snapshot starts with '/' or a letter, never with a digit. */
  lemma EncodeHead(tiles: seq<Tile>)
    requires |tiles| > 0
    ensures |Encode(tiles)| > 0 && !IsDigit(Encode(tiles)[0])
  {
  }

  /** One tile's code is read back as one tile of the same occupant. */
  lemma ParseTileCode(t: Tile, rest: string, output: seq<Tile>)
    requires rest == "" || !IsDigit(rest[0])
    ensures Parse(TileCode(t) + rest, output) == Parse(rest, output + [Reload(t, |output|)])
  {
    match t.piece {
      case None =>
        Helpers.Associative("/", "1", rest);
        assert TileCode(t) == "/" + "1";
        ParseSlash("1" + rest, output);
        assert DigitsValue("1") == 1 by {
          assert "1"[..0] == "";
        }
        ParseDigits("1", rest, output);
        assert Blanks(|output|, 1) == [Reload(t, |output|)];
      case Some(p) =>
        var code := PieceCode(p);
        ParseLetter(code, rest, output);
        assert LetterPiece(code) == Some(Fresh(p.kind, p.color));
    }
  }

  lemma {:induction false} ParseEncode(tiles: seq<Tile>, output: seq<Tile>)
    ensures Parse(Encode(tiles), output) == Some(output + Reloaded(tiles, |output|))
    decreases |tiles|
  {
    if |tiles| == 0 {
      assert output + [] == output;
    } else {
      var rest := Encode(tiles[1..]);
      var head := [Reload(tiles[0], |output|)];
      var next := output + head;
      var tail := Reloaded(tiles[1..], |next|);
      assert Parse(Encode(tiles), output) == Parse(rest, next) by {
        assert Encode(tiles) == TileCode(tiles[0]) + rest;
        if |tiles| > 1 {
          EncodeHead(tiles[1..]);
        }
        ParseTileCode(tiles[0], rest, output);
      }
      assert Reloaded(tiles, |output|) == head + tail;
      ParseEncode(tiles[1..], next);
      Helpers.Associative(output, head, tail);
    }
  }

  /** Decoding a board's snapshot restores its size and, at every index, the
      kind and colour of the occupant; the restored pieces are fresh. */
  lemma RoundTrip(tiles: seq<Tile>, rows: nat, columns: nat)
    requires |tiles| == rows * columns
    ensures |FenGen(Encode(tiles), rows, columns)| == |tiles|
    ensures WellIndexed(FenGen(Encode(tiles), rows, columns))
    ensures forall i :: 0 <= i < |tiles| ==>
      Occupant(FenGen(Encode(tiles), rows, columns)[i]) == Occupant(tiles[i])
    ensures forall i :: 0 <= i < |tiles| && FenGen(Encode(tiles), rows, columns)[i].piece.Some? ==>
      !FenGen(Encode(tiles), rows, columns)[i].piece.value.moved
  {
    ParseEncode(tiles, []);
    assert [] + Reloaded(tiles, 0) == Reloaded(tiles, 0);
  }
}

=== FILE: helpers.dfy ===
/** General facts about sequences and integer division that the board
    modules lean on. */
module Helpers {

  /** Concatenation is associative. */
  lemma Associative<T>(a: seq<T>, b: seq<T>, c: seq<T>)
    ensures (a + b) + c == a + (b + c)
  {
  }

  /** Euclidean division is determined by quotient and remainder. */
  lemma DivModUnique(x: int, k: int, q: int, r: int)
    requires k > 0 && 0 <= r < k && x == k * q + r
    ensures x / k == q && x % k == r
  {
    var q0, r0 := x / k, x % k;
    assert x == k * q0 + r0;
    var d := q - q0;
    assert k * d == r0 - r by {
      assert k * q - k * q0 == k * d;
    }
    if d >= 1 {
      assert false;
    } else if d <= -1 {
      assert false;
    }
  }

  /** Negation moves through a product. */
  lemma MulShift(c: int, q: int)
    ensures c * -q == -(c * q)
    ensures c * (-q - 1) == -(c * q) - c
  {
  }
}

=== FILE: pieces.dfy ===
/** The board's basic vocabulary: colours, piece kinds, pieces and tiles,
    plus the character classes and the letter lookup the snapshot codec uses. */
module Pieces {

  /** The conventional optional value; stands in for JavaScript's `null`. */
  datatype Option<T> = None | Some(value: T)

  datatype Color = White | Black

  /** The other side. */
  function Flip(c: Color): (r: Color)
    ensures r != c
  {
    if c == White then Black else White
  }

  datatype Kind = Rook | Bishop | Knight | King | Pawn | Queen

  /** A piece: its kind and colour, whether it has moved, and the two index
      lists its move generator last stored (non-capturing destinations and
      capturing destinations). The lists are opaque data here: nothing in
      this model recomputes them; in the source only highlightMoves (line 112
      of src/board/stateManager.js) regenerates them, and tryMove reads them
      as stored. */
  datatype Piece = Piece(kind: Kind, color: Color, moved: bool,
                         validMoves: seq<int>, validTakes: seq<int>)

  /** A board square: its linear position and an optional occupant. */
  datatype Tile = Tile(index: int, piece: Option<Piece>)

  /** Every tile's index is its position in the sequence. */
  predicate WellIndexed(tiles: seq<Tile>)
  {
    forall i :: 0 <= i < |tiles| ==> tiles[i].index == i
  }

  /** What a snapshot can see of a tile: the kind and colour of its occupant. */
  function Occupant(t: Tile): Option<(Kind, Color)>
  {
    match t.piece
    case None => None
    case Some(p) => Some((p.kind, p.color))
  }

  // Character classes of the decoder's regular expression /^\d+|^[A-Za-z]/.

  predicate IsDigit(c: char) { '0' <= c <= '9' }
  predicate IsUpper(c: char) { 'A' <= c <= 'Z' }
  predicate IsLower(c: char) { 'a' <= c <= 'z' }
  predicate IsLetter(c: char) { IsUpper(c) || IsLower(c) }

  /** String.prototype.toLowerCase on one ASCII character. */
  function ToLower(c: char): (r: char)
    ensures IsUpper(c) ==> IsLower(r) && ToUpper(r) == c
    ensures !IsUpper(c) ==> r == c
  {
    if IsUpper(c) then (c as int - 'A' as int + 'a' as int) as char else c
  }

  /** String.prototype.toUpperCase on one ASCII character. */
  function ToUpper(c: char): (r: char)
    ensures IsLower(c) ==> IsUpper(r)
    ensures !IsLower(c) ==> r == c
  {
    if IsLower(c) then (c as int - 'a' as int + 'A' as int) as char else c
  }

  /** The decoder's switch on the lower-cased letter; any other letter
      selects no piece class. */
  function KindOfLetter(c: char): Option<Kind>
  {
    match c
    case 'r' => Some(Rook)
    case 'b' => Some(Bishop)
    case 'n' => Some(Knight)
    case 'k' => Some(King)
    case 'p' => Some(Pawn)
    case 'q' => Some(Queen)
    case _ => None
  }

  /** The one-letter tag a piece class reports. The piece classes are not
      part of this model; the tag is taken to be the upper-case form of the
      letter the decoder maps to the same kind. */
  function Tag(k: Kind): (c: char)
    ensures IsUpper(c)
    ensures KindOfLetter(ToLower(c)) == Some(k)
  {
    match k
    case Rook => 'R'
    case Bishop => 'B'
    case Knight => 'N'
    case King => 'K'
    case Pawn => 'P'
    case Queen => 'Q'
  }

  /** A freshly constructed piece: not yet moved, nothing generated. */
  function Fresh(k: Kind, c: Color): Piece
  {
    Piece(k, c, false, [], [])
  }

  /** The occupant the decoder creates for a letter: white exactly when the
      letter equals its own upper-case form, no piece for an unknown letter. */
  function LetterPiece(c: char): (r: Option<Piece>)
    requires IsLetter(c)
    ensures r.Some? <==> KindOfLetter(ToLower(c)).Some?
    ensures r.Some? ==>
      r.value == Fresh(KindOfLetter(ToLower(c)).value, if IsUpper(c) then White else Black)
  {
    var color := if c == ToUpper(c) then White else Black;
    match KindOfLetter(ToLower(c))
    case None => None
    case Some(k) => Some(Fresh(k, color))
  }
}

=== FILE: scenarios.dfy ===
/** Two worked cases of the board engine on an 8x8 board: loading an
    all-blank snapshot written rank by rank, and a rook's first move. */
module Scenarios {
  import opened Pieces
  import Codec
  import Turns
  import StateManager
  import Helpers

  /** k ranks of eight blanks, separated by '/', as tokens. */
  function Ranks(k: nat): (ts: seq<Codec.Token>)
    requires k >= 1
    ensures Codec.Lexable(ts) && |ts| > 0 && ts[0] == Codec.Digits("8")
    decreases k
  {
    if k == 1 then [Codec.Digits("8")]
    else [Codec.Digits("8"), Codec.Slash] + Ranks(k - 1)
  }

  lemma EightValue()
    ensures Codec.DigitsValue("8") == 8
  {
    assert "8"[..0] == "";
  }

  /** A leading rank "8/" contributes eight blanks and shifts the rest by eight. */
  lemma RankExpand(rest: seq<Codec.Token>, from: nat)
    requires Codec.Lexable([Codec.Digits("8"), Codec.Slash] + rest)
    ensures Codec.Lexable(rest)
    ensures Codec.Expand([Codec.Digits("8"), Codec.Slash] + rest, from)
         == Codec.Blanks(from, 8) + Codec.Expand(rest, from + 8)
  {
    var ts := [Codec.Digits("8"), Codec.Slash] + rest;
    EightValue();
    Codec.ExpandCons(ts, from);
    assert ts[1..] == [Codec.Slash] + rest;
    Codec.ExpandCons(ts[1..], from + 8);
    assert ts[1..][1..] == rest;
    assert Codec.Expand(ts[1..], from + 8) == Codec.Expand(rest, from + 8) by {
      assert Codec.TokenTiles(Codec.Slash, from + 8) == [];
    }
  }

  lemma {:induction false} RanksExpand(k: nat, from: nat)
    requires k >= 1
    ensures Codec.Expand(Ranks(k), from) == Codec.Blanks(from, 8 * k)
    decreases k
  {
    if k == 1 {
      EightValue();
      var ts := Ranks(1);
      Codec.ExpandCons(ts, from);
      assert Codec.Expand(ts[1..], from + 8) == [];
      assert Codec.Blanks(from, 8) + [] == Codec.Blanks(from, 8);
    } else {
      RankExpand(Ranks(k - 1), from);
      RanksExpand(k - 1, from + 8);
      Codec.BlanksSplit(from, 8, 8 * (k - 1));
    }
  }

  /** k ranks of eight blanks as text. */
  function RankText(k: nat): string
    requires k >= 1
  {
    if k == 1 then "8" else "8/" + RankText(k - 1)
  }

  lemma {:induction false} RenderRanks(k: nat)
    requires k >= 1
    ensures Codec.Render(Ranks(k)) == RankText(k)
    decreases k
  {
    var ts := Ranks(k);
    if k == 1 {
      assert ts[1..] == [];
    } else {
      assert ts[1..] == [Codec.Slash] + Ranks(k - 1);
      assert ts[1..][1..] == Ranks(k - 1);
      RenderRanks(k - 1);
      assert Codec.Render(ts) == "8" + ("/" + RankText(k - 1));
      Helpers.Associative("8", "/", RankText(k - 1));
    }
  }

  /** The eight-rank token list renders as the usual empty-board text. */
  lemma EightRanksText()
    ensures Codec.Render(Ranks(8)) == "8/8/8/8/8/8/8/8"
  {
    RenderRanks(8);
    assert RankText(8) == "8/8/8/8/8/8/8/8";
  }

  /** "8/8/8/8/8/8/8/8" on an 8x8 board loads 64 empty tiles. */
  lemma EightBlankRanks()
    ensures Codec.FenGen("8/8/8/8/8/8/8/8", 8, 8) == Codec.Blank(64)
    ensures forall i :: 0 <= i < 64 ==> Codec.FenGen("8/8/8/8/8/8/8/8", 8, 8)[i].piece.None?
  {
    EightRanksText();
    RanksExpand(8, 0);
    Codec.FenGenOfTokens(Ranks(8), 8, 8);
  }

  /** A white rook on tile 0 of an otherwise empty board whose stored moves
      are tiles 1..7; white to move, one move per turn. */
  function RookBoard(): StateManager.Game
  {
    var rook := Piece(Rook, White, false, [1, 2, 3, 4, 5, 6, 7], []);
    StateManager.Game(Turns.Start(), [Tile(0, Some(rook))] + Codec.Blanks(1, 63), 8, 8, [])
  }

  /** tryMove(0, 7) succeeds as a plain move: tile 0 empties, tile 7 holds
      the rook marked as moved, black is to move and one snapshot is recorded. */
  lemma RookMove()
    ensures StateManager.TryMove(RookBoard(), 0, 7).accepted
    ensures StateManager.TryMove(RookBoard(), 0, 7).captured.None?
    ensures StateManager.TryMove(RookBoard(), 0, 7).game.state[0].piece.None?
    ensures StateManager.TryMove(RookBoard(), 0, 7).game.state[7].piece
         == Some(Piece(Rook, White, true, [1, 2, 3, 4, 5, 6, 7], []))
    ensures StateManager.TryMove(RookBoard(), 0, 7).game.clock.turn == Black
    ensures |StateManager.TryMove(RookBoard(), 0, 7).game.history| == 1
  {
    var g := RookBoard();
    assert g.state[7] == Tile(7, None);
    assert 7 in g.state[0].piece.value.validMoves;
    assert StateManager.TryMoveDefined(g, 0, 7);
  }
}

=== FILE: state_manager.dfy ===
/** The board state model of ChessStateManager: the tiles, the turn clock
    and the snapshot history, with the queries, the move primitive and the
    validating move gate. The manager is modelled as an immutable record and
    every mutating method as a function from the old record to the new one. */
module StateManager {
  import opened Pieces
  import Codec
  import Turns
  import Helpers

  /** The manager's state. The DOM board object, the highlighted-div list
      and the never-used en-passant list are not modelled; the board's
      dimensions are kept as plain numbers. */
  datatype Game = Game(clock: Turns.Clock, state: seq<Tile>, rows: nat, columns: nat,
                       history: seq<string>)

  /** The constructor: white to move, one move per turn, no tiles, no history. */
  function NewGame(rows: nat, columns: nat): Game
  {
    Game(Turns.Start(), [], rows, columns, [])
  }

  /** A loaded board: rows*columns tiles, each numbered with its position. */
  predicate Valid(g: Game)
  {
    |g.state| == g.rows * g.columns && WellIndexed(g.state)
  }

  /** fenGen applied to the manager: replaces the tiles and nothing else,
      and always leaves a loaded board. */
  function LoadFen(g: Game, fen: string): (r: Game)
    ensures r.state == Codec.FenGen(fen, g.rows, g.columns)
    ensures Valid(r)
    ensures r.clock == g.clock && r.history == g.history
    ensures r.rows == g.rows && r.columns == g.columns
  {
    g.(state := Codec.FenGen(fen, g.rows, g.columns))
  }

  // ---------------------------------------------------------------------
  // Queries
  // ---------------------------------------------------------------------

  /** getTile: the tile at an on-board index, otherwise the sentinel tile
      numbered -1 with no piece. On a loaded board the sentinel is told apart
      from every real tile by its index. */
  function GetTile(g: Game, index: int): (t: Tile)
    requires |g.state| == g.rows * g.columns
    ensures 0 <= index < g.rows * g.columns ==> t == g.state[index]
    ensures !(0 <= index < g.rows * g.columns) ==> t == Tile(-1, None)
    ensures WellIndexed(g.state) ==> (t.index == -1 <==> !(0 <= index < g.rows * g.columns))
    ensures WellIndexed(g.state) && 0 <= index < g.rows * g.columns ==> t.index == index
  {
    if 0 <= index < g.rows * g.columns then g.state[index] else Tile(-1, None)
  }

  /** getRow: Math.floor(index / columns); for a positive divisor Dafny's
      Euclidean division is floor division. */
  function GetRow(g: Game, index: int): int
    requires g.columns > 0
  {
    index / g.columns
  }

  /** getColumn: JavaScript's `%`, whose result takes the sign of the dividend. */
  function GetColumn(g: Game, index: int): int
    requires g.columns > 0
  {
    TruncatedRem(index, g.columns)
  }

  /** The remainder of truncating division, whose sign follows the dividend. */
  function TruncatedRem(a: int, c: int): int
    requires c > 0
  {
    if a >= 0 then a % c else -((-a) % c)
  }

  /** JavaScript's remainder against Dafny's Euclidean one, for a positive divisor. */
  lemma TruncatedRemainder(index: int, c: int)
    requires c > 0
    ensures index >= 0 ==> TruncatedRem(index, c) == index % c
    ensures index < 0 && index % c == 0 ==> TruncatedRem(index, c) == 0
    ensures index < 0 && index % c != 0 ==> TruncatedRem(index, c) == index % c - c
  {
    if index < 0 {
      var q, r := index / c, index % c;
      assert index == c * q + r;
      Helpers.MulShift(c, q);
      if r == 0 {
        Helpers.DivModUnique(-index, c, -q, 0);
      } else {
        Helpers.DivModUnique(-index, c, -q - 1, c - r);
      }
    }
  }

  lemma Recompose(index: int, c: int)
    requires c > 0
    ensures (index / c) * c + TruncatedRem(index, c) == index <==> index >= 0 || index % c == 0
    ensures index >= 0 ==> 0 <= index / c && 0 <= TruncatedRem(index, c) < c
  {
    var r := index % c;
    var qc := (index / c) * c;
    assert index == qc + r;
    TruncatedRemainder(index, c);
    if index >= 0 {
      assert TruncatedRem(index, c) == r;
    } else if r == 0 {
      assert TruncatedRem(index, c) == 0;
    } else {
      assert qc + TruncatedRem(index, c) == index - c;
    }
  }

  lemma RowBound(index: int, rows: nat, c: int)
    requires c > 0 && 0 <= index < rows * c
    ensures index / c < rows
  {
    var q := index / c;
    if q >= rows {
      assert false;
    }
  }

  /** Row and column recompose the index exactly for non-negative indices
      (and for negative multiples of the width); an on-board index has an
      on-board row and column. */
  lemma RowColumn(g: Game, index: int)
    requires g.columns > 0
    ensures GetRow(g, index) * g.columns + GetColumn(g, index) == index
        <==> index >= 0 || index % g.columns == 0
    ensures index >= 0 ==> 0 <= GetRow(g, index) && 0 <= GetColumn(g, index) < g.columns
    ensures 0 <= index < g.rows * g.columns ==> GetRow(g, index) < g.rows
  {
    Recompose(index, g.columns);
    if 0 <= index < g.rows * g.columns {
      RowBound(index, g.rows, g.columns);
    }
  }

  /** pieceTurn: the piece on the tile belongs to the side to move. On a
      loaded board this is the colour getTile reports for the same index, and
      exactly one side's pieces pass at any time. */
  function PieceTurn(g: Game, index: int): (b: bool)
    requires 0 <= index < |g.state| && g.state[index].piece.Some?
    ensures |g.state| == g.rows * g.columns ==>
      (b <==> GetTile(g, index).piece.value.color == g.clock.turn)
    ensures b <==> g.state[index].piece.value.color != Flip(g.clock.turn)
  {
    g.state[index].piece.value.color == g.clock.turn
  }

  // ---------------------------------------------------------------------
  // The move primitive
  // ---------------------------------------------------------------------

  /** What move needs to run without a fault: both indices on the board and
      a piece on the source tile. */
  predicate CanMove(g: Game, from: int, to: int)
  {
    0 <= from < |g.state| && 0 <= to < |g.state| && g.state[from].piece.Some?
  }

  /** move: advance the clock, mark the piece as moved, put it on the
      destination, clear the source, and record the new snapshot. The
      destination is written before the source is cleared, so moving a piece
      onto its own tile leaves that tile empty. */
  function Move(g: Game, from: int, to: int): (r: Game)
    requires CanMove(g, from, to)
    ensures |r.state| == |g.state|
    ensures r.state[from] == g.state[from].(piece := None)
    ensures from != to ==>
      r.state[to] == g.state[to].(piece := Some(g.state[from].piece.value.(moved := true)))
    ensures forall i :: 0 <= i < |g.state| && i != from && i != to ==> r.state[i] == g.state[i]
    ensures r.clock == Turns.Tick(g.clock)
    ensures r.history == g.history + [Codec.Encode(r.state)]
    ensures r.rows == g.rows && r.columns == g.columns
    ensures Valid(g) ==> Valid(r)
  {
    var piece := g.state[from].piece.value.(moved := true);
    var placed := g.state[to := g.state[to].(piece := Some(piece))];
    var vacated := placed[from := placed[from].(piece := None)];
    g.(clock := Turns.Tick(g.clock), state := vacated,
       history := g.history + [Codec.Encode(vacated)])
  }

  /** The number of occupied tiles. */
  function Occupied(tiles: seq<Tile>): nat
  {
    if |tiles| == 0 then 0
    else (if tiles[0].piece.Some? then 1 else 0) + Occupied(tiles[1..])
  }

  lemma {:induction false} OccupiedUpdate(tiles: seq<Tile>, i: int, t: Tile)
    requires 0 <= i < |tiles|
    ensures Occupied(tiles[i := t]) + (if tiles[i].piece.Some? then 1 else 0)
         == Occupied(tiles) + (if t.piece.Some? then 1 else 0)
    decreases |tiles|
  {
    if i > 0 {
      assert tiles[i := t][1..] == tiles[1..][i - 1 := t];
      OccupiedUpdate(tiles[1..], i - 1, t);
    } else {
      assert tiles[i := t][1..] == tiles[1..];
    }
  }

  /** move relocates and never copies: a plain move keeps the number of
      pieces on the board, a move onto an occupied tile removes exactly one
      (including a move onto the piece's own tile, which empties it). */
  lemma MoveRelocates(g: Game, from: int, to: int)
    requires CanMove(g, from, to)
    ensures Occupied(Move(g, from, to).state)
         == Occupied(g.state) - (if g.state[to].piece.Some? then 1 else 0)
  {
    var piece := g.state[from].piece.value.(moved := true);
    var placed := g.state[to := g.state[to].(piece := Some(piece))];
    OccupiedUpdate(g.state, to, g.state[to].(piece := Some(piece)));
    OccupiedUpdate(placed, from, placed[from].(piece := None));
  }

  // ---------------------------------------------------------------------
  // The validating gate
  // ---------------------------------------------------------------------

  /** The outcome of tryMove: whether the move was made, the kind of the
      captured piece handed to the move log, and the resulting manager. */
  datatype Attempt = Attempt(accepted: bool, captured: Option<Kind>, game: Game)

  /** What tryMove needs to run without a fault: a piece on an on-board
      source tile and, when that piece is to move and lists the destination,
      an on-board destination that is occupied if it is only a take. */
  predicate TryMoveDefined(g: Game, from: int, to: int)
  {
    && 0 <= from < |g.state|
    && g.state[from].piece.Some?
    && var p := g.state[from].piece.value;
       p.color == g.clock.turn ==>
         && ((to in p.validMoves || to in p.validTakes) ==> 0 <= to < |g.state|)
         && ((to !in p.validMoves && to in p.validTakes) ==> g.state[to].piece.Some?)
  }

  /** tryMove: reads the piece's stored move and take lists (it does not
      regenerate them). A piece of the side not to move, or a destination in
      neither list, is refused with nothing changed; the move list is
      consulted first, so a destination in both is a plain move; a take
      reports the kind of the destination's occupant. */
  function TryMove(g: Game, from: int, to: int): (r: Attempt)
    requires TryMoveDefined(g, from, to)
    ensures r.accepted <==>
      PieceTurn(g, from)
      && (to in g.state[from].piece.value.validMoves || to in g.state[from].piece.value.validTakes)
    ensures !r.accepted ==> r.game == g && r.captured.None?
    ensures r.accepted ==> CanMove(g, from, to) && r.game == Move(g, from, to)
    ensures r.captured.Some? <==> r.accepted && to !in g.state[from].piece.value.validMoves
    ensures r.captured.Some? ==>
      g.state[to].piece.Some? && r.captured.value == g.state[to].piece.value.kind
  {
    if !PieceTurn(g, from) then Attempt(false, None, g)
    else
      var piece := g.state[from].piece.value;
      if to in piece.validMoves then Attempt(true, None, Move(g, from, to))
      else if to in piece.validTakes then
        Attempt(true, Some(g.state[to].piece.value.kind), Move(g, from, to))
      else Attempt(false, None, g)
  }

  // ---------------------------------------------------------------------
  // Runs of moves
  // ---------------------------------------------------------------------

  datatype Step = Step(from: int, to: int)

  /** Every step of the run can be executed in turn. */
  predicate Playable(g: Game, steps: seq<Step>)
    decreases |steps|
  {
    |steps| == 0
    || (CanMove(g, steps[0].from, steps[0].to)
        && Playable(Move(g, steps[0].from, steps[0].to), steps[1..]))
  }

  /** The manager after the whole run. */
  function Play(g: Game, steps: seq<Step>): Game
    requires Playable(g, steps)
    decreases |steps|
  {
    if |steps| == 0 then g else Play(Move(g, steps[0].from, steps[0].to), steps[1..])
  }

  /** The manager after each step of the run. */
  function Trace(g: Game, steps: seq<Step>): (r: seq<Game>)
    requires Playable(g, steps)
    ensures |r| == |steps|
    decreases |steps|
  {
    if |steps| == 0 then []
    else
      var next := Move(g, steps[0].from, steps[0].to);
      [next] + Trace(next, steps[1..])
  }

  /** The snapshot of each board in a sequence of managers, in order. */
  function Encodings(trace: seq<Game>): (r: seq<string>)
    ensures |r| == |trace|
    ensures forall j :: 0 <= j < |trace| ==> r[j] == Codec.Encode(trace[j].state)
    decreases |trace|
  {
    if |trace| == 0 then [] else [Codec.Encode(trace[0].state)] + Encodings(trace[1..])
  }

  /** The snapshot of the board after each step of the run. */
  function Snapshots(g: Game, steps: seq<Step>): (r: seq<string>)
    requires Playable(g, steps)
    ensures |r| == |steps|
  {
    Encodings(Trace(g, steps))
  }

  lemma SnapshotsCons(g: Game, steps: seq<Step>)
    requires Playable(g, steps) && |steps| > 0
    ensures Snapshots(g, steps)
         == [Codec.Encode(Move(g, steps[0].from, steps[0].to).state)]
            + Snapshots(Move(g, steps[0].from, steps[0].to), steps[1..])
  {
    var next := Move(g, steps[0].from, steps[0].to);
    var trace := Trace(g, steps);
    assert trace == [next] + Trace(next, steps[1..]);
    assert trace[1..] == Trace(next, steps[1..]);
  }

  /** History only grows, by exactly one entry per move, and the entry of
      each move is the snapshot of the board right after it. */
  lemma {:induction false} HistoryRecordsEveryMove(g: Game, steps: seq<Step>)
    requires Playable(g, steps)
    ensures Play(g, steps).history == g.history + Snapshots(g, steps)
    decreases |steps|
  {
    if |steps| == 0 {
      assert g.history + [] == g.history;
    } else {
      var next := Move(g, steps[0].from, steps[0].to);
      var head := [Codec.Encode(next.state)];
      var tail := Snapshots(next, steps[1..]);
      assert next.history == g.history + head;
      SnapshotsCons(g, steps);
      HistoryRecordsEveryMove(next, steps[1..]);
      Helpers.Associative(g.history, head, tail);
    }
  }

  /** A run advances the clock once per move and keeps the board loaded. */
  lemma {:induction false} PlayKeepsBookkeeping(g: Game, steps: seq<Step>)
    requires Playable(g, steps)
    ensures Play(g, steps).clock == Turns.Ticks(g.clock, |steps|)
    ensures Valid(g) ==> Valid(Play(g, steps))
    decreases |steps|
  {
    if |steps| > 0 {
      PlayKeepsBookkeeping(Move(g, steps[0].from, steps[0].to), steps[1..]);
    }
  }

  /** In a new game loaded from any snapshot, after n moves the history holds
      exactly n snapshots and, with one move per turn, the side to move has
      alternated n times starting from white. */
  lemma {:induction false} NewGameRun(rows: nat, columns: nat, fen: string, steps: seq<Step>)
    requires Playable(LoadFen(NewGame(rows, columns), fen), steps)
    ensures |Play(LoadFen(NewGame(rows, columns), fen), steps).history| == |steps|
    ensures Play(LoadFen(NewGame(rows, columns), fen), steps).clock.turn == Turns.FlipTimes(White, |steps|)
    ensures Valid(Play(LoadFen(NewGame(rows, columns), fen), steps))
  {
    var g := LoadFen(NewGame(rows, columns), fen);
    HistoryRecordsEveryMove(g, steps);
    assert [] + Snapshots(g, steps) == Snapshots(g, steps);
    PlayKeepsBookkeeping(g, steps);
    Turns.TicksCount(g.clock, |steps|);
  }
}

=== FILE: turns.dfy ===
/** Turn bookkeeping of ChessStateManager: the active colour, the number of
    moves made in the current turn, and the per-turn move budget that lets a
    side move several times before the colour passes. */
module Turns {
  import opened Pieces
  import Helpers

  datatype Clock = Clock(turn: Color, movesThisTurn: int, movesPerTurn: int)

  /** A new game: white to move, no moves yet, one move per turn. */
  function Start(): Clock
  {
    Clock(White, 0, 1)
  }

  /** incrementMoves: one more move in the current turn. */
  function IncrementMoves(c: Clock): (r: Clock)
    ensures r.movesThisTurn == c.movesThisTurn + 1
    ensures r.turn == c.turn && r.movesPerTurn == c.movesPerTurn
  {
    c.(movesThisTurn := c.movesThisTurn + 1)
  }

  /** nextTeam: while the budget is not used up nothing changes; once it is,
      the counter resets and the other colour moves. */
  function NextTeam(c: Clock): (r: Clock)
    ensures c.movesThisTurn < c.movesPerTurn ==> r == c
    ensures c.movesThisTurn >= c.movesPerTurn ==>
      r.movesThisTurn == 0 && r.turn == Flip(c.turn)
    ensures r.movesPerTurn == c.movesPerTurn
  {
    if c.movesThisTurn < c.movesPerTurn then c
    else if c.turn == White then c.(movesThisTurn := 0, turn := Black)
    else c.(movesThisTurn := 0, turn := White)
  }

  /** The bookkeeping of one move: incrementMoves followed by nextTeam. The
      colour stays while the raised counter is below the budget; otherwise
      it flips exactly once and the counter restarts at 0. A counter inside
      a positive budget stays inside it. */
  function Tick(c: Clock): (r: Clock)
    ensures c.movesThisTurn + 1 < c.movesPerTurn ==>
      r.turn == c.turn && r.movesThisTurn == c.movesThisTurn + 1
    ensures c.movesThisTurn + 1 >= c.movesPerTurn ==>
      r.turn == Flip(c.turn) && r.movesThisTurn == 0
    ensures r.movesPerTurn == c.movesPerTurn
    ensures 0 <= c.movesThisTurn < c.movesPerTurn ==> 0 <= r.movesThisTurn < r.movesPerTurn
  {
    NextTeam(IncrementMoves(c))
  }

  /** The clock after n moves. */
  function Ticks(c: Clock, n: nat): Clock
    decreases n
  {
    if n == 0 then c else Ticks(Tick(c), n - 1)
  }

  /** The colour after m flips. */
  function FlipTimes(c: Color, m: nat): Color
  {
    if m % 2 == 0 then c else Flip(c)
  }

  lemma DivModStep(k: int, n: nat)
    requires k >= 1 && n >= 1
    ensures (k - 1 + n) / k == 1 + (n - 1) / k
    ensures (k - 1 + n) % k == (n - 1) % k
  {
    var q, r := (n - 1) / k, (n - 1) % k;
    assert n - 1 == k * q + r;
    assert k - 1 + n == k * (1 + q) + r by {
      assert k * (1 + q) == k + k * q;
    }
    Helpers.DivModUnique(k - 1 + n, k, 1 + q, r);
  }

  /** One tick then n - 1 more lands where n ticks from the start would:
      the counter and the number of completed budgets agree. */
  lemma TickShift(c: Clock, n: nat)
    requires c.movesPerTurn >= 1
    requires 0 <= c.movesThisTurn < c.movesPerTurn
    requires n >= 1
    ensures (Tick(c).movesThisTurn + (n - 1)) % c.movesPerTurn
         == (c.movesThisTurn + n) % c.movesPerTurn
    ensures FlipTimes(Tick(c).turn, (Tick(c).movesThisTurn + (n - 1)) / c.movesPerTurn)
         == FlipTimes(c.turn, (c.movesThisTurn + n) / c.movesPerTurn)
  {
    if c.movesThisTurn + 1 < c.movesPerTurn {
      assert c.movesThisTurn + 1 + (n - 1) == c.movesThisTurn + n;
    } else {
      DivModStep(c.movesPerTurn, n);
      assert FlipTimes(Flip(c.turn), (n - 1) / c.movesPerTurn)
          == FlipTimes(c.turn, 1 + (n - 1) / c.movesPerTurn);
    }
  }

  /** With a budget of k >= 1 moves per turn and a counter inside it, after
      n moves the counter is (counter + n) mod k and the colour has flipped
      once for every k moves completed. */
  lemma {:induction false} TicksCount(c: Clock, n: nat)
    requires c.movesPerTurn >= 1
    requires 0 <= c.movesThisTurn < c.movesPerTurn
    ensures Ticks(c, n).movesPerTurn == c.movesPerTurn
    ensures Ticks(c, n).movesThisTurn == (c.movesThisTurn + n) % c.movesPerTurn
    ensures Ticks(c, n).turn == FlipTimes(c.turn, (c.movesThisTurn + n) / c.movesPerTurn)
    decreases n
  {
    if n == 0 {
      Helpers.DivModUnique(c.movesThisTurn, c.movesPerTurn, 0, c.movesThisTurn);
    } else {
      TicksCount(Tick(c), n - 1);
      TickShift(c, n);
    }
  }

  /** From the start of a turn with budget k >= 1: fewer than k moves keep
      the colour, exactly k moves flip it once and restart the counter. */
  lemma FlipsOncePerBudget(c: Clock, j: nat)
    requires c.movesPerTurn >= 1 && c.movesThisTurn == 0
    ensures j < c.movesPerTurn ==>
      Ticks(c, j).turn == c.turn && Ticks(c, j).movesThisTurn == j
    ensures j == c.movesPerTurn ==>
      Ticks(c, j).turn == Flip(c.turn) && Ticks(c, j).movesThisTurn == 0
  {
    TicksCount(c, j);
    var k := c.movesPerTurn;
    if j < k {
      Helpers.DivModUnique(j, k, 0, j);
    } else if j == k {
      Helpers.DivModUnique(j, k, 1, 0);
    }
  }
}
